=== FILE: README.md ===
# Portfolio site: a verified model of its routing and page logic

The site is a single-page React application. A shell keeps the current path
in state and mirrors it in the URL fragment. It resolves the path to one of
five pages and animates page changes. The pages are:

- a Work page that filters projects by tag;
- a case-study page that looks a project up by its slug;
- project cards that tilt under the pointer;
- a navigation bar;
- a contact form that builds a `mailto` URI.

This project models the deterministic logic behind those pieces. Each
component's state is an immutable Dafny datatype, and each event handler is
a pure function from state to state.

| module | file | models |
|---|---|---|
| `Router` | router.dfy | `src/app/App.tsx`: path resolution, hydration from the fragment (section 3.5 of RFC 3986), `handleNavigate`, the page key, the reduced-motion variants |
| `WorkPage` | work_page.dfy | `src/app/pages/WorkPage.tsx`: tag catalogue, tag filter, empty state, card target |
| `CaseStudyPage` | case_study_page.dfy | `src/app/pages/CaseStudyPage.tsx`: slug lookup, not-found branch, navigation targets, architecture-key headings |
| `ProjectCard` | project_card.dfy | `src/app/components/ProjectCard.tsx`: pointer offsets, rotations, hover and reduced-motion gating |
| `Navbar` | navbar.dfy | `src/app/components/Navbar.tsx`: links, active link, link and logo clicks, menu toggle, scrolled flag |
| `ContactPage` | contact_page.dfy | `src/app/pages/ContactPage.tsx`: form record, change handler, copied flag, subject, body and `mailto` URI (section 2 of RFC 6068) |
| `Projects` | projects.dfy | the `Project` record shape of `src/data/projects.ts` |
| `Site` | site.dfy | the site's one project as a fixture, plus end-to-end navigation scenarios |
| `Strings`, `Seqs`, `Options` | strings.dfy, seqs.dfy, options.dfy | the JavaScript string and array operations the code relies on, and `undefined` as `None` |

The model follows JavaScript semantics where they matter:

- `replace` with a string pattern replaces only the first occurrence.
- `trim` removes the ECMAScript WhiteSpace and LineTerminator characters.
- `Array.from(new Set(xs))` keeps the order of first insertion.
- `find` returns the first match.
- Assigning `location.hash` drops one leading `#`, and an empty fragment
  reads back as "". This is the `hash` setter and getter of the HTML
  standard's `Location` interface.
- Pointer arithmetic is over `real`. A box of zero extent is modelled
  explicitly: the offset becomes an infinity, or NaN when the pointer offset
  is zero too, and NaN reaches the rotation as "no angle".
- `useTransform` clamps its output to the end values, which is the motion
  library's default.
- Strings are sequences of Unicode scalar values, whereas JavaScript strings
  are sequences of UTF-16 code units. No modelled operation behaves
  differently on well-formed strings. Lengths, as in
  `CaseStudyPage.LabelLength`, count scalar values, not `.length`.

Some behaviour of the code is easy to misread, so the model states it
explicitly:

- **Repeated navigation does not restart the animation.** The page
  container is keyed by the current path. Navigating to the path already
  shown keeps the same key, so no new enter/exit cycle starts.
  `Router.NavigateRemountsIffNewPath` states this.
- **Paths need not start with `/`.** Nothing in the code enforces a leading
  `/`. A fragment such as `#work` gives the current path `work`, which falls
  back to the home page. The model keeps any path; `Router.Hydrate` takes
  whatever follows the `#`, and `/` only when nothing does.
- **A path starting with `#` reloads differently.** `navigate("#/work")`
  shows the home page, because `#/work` matches no rule. The fragment setter
  drops the leading `#`, so a reload then shows the work list.
  `Router.HashPrefixedPathReloadsDifferently` states this. No call site
  passes such a path.
- **Reduced motion is read, not subscribed.** The preference is read on each
  render. There is no subscription, so the model takes it as a parameter.
- **"All" in the tag catalogue.** The catalogue puts "All" in front of the
  project tags without removing a project tag of the same name. If a project
  carried the tag "All", it would be listed twice and would select the
  unfiltered list. No project carries it. The model keeps the code's
  behaviour: `WorkPage.AllTagsCatalogue` states distinctness only for the
  part after the head.

## Model

| member | source | states |
|---|---|---|
| Router.ResolveRules | src/app/App.tsx:33-52 | each fixed path gives its page and nothing else does; a path shows a case study iff it starts with `/work/`; every other path, "" included, gives Home; `/work` cannot match the prefix rule, so rule order does not matter |
| Router.ResolveCaseStudy | src/app/App.tsx:40-42 | for every string s, the empty one included, `/work/` + s resolves to the case study with slug s: the first-occurrence `replace` removes exactly the prefix |
| Router.ResolveCaseStudyIff | src/app/App.tsx:40-42 | a path shows the case study for slug s iff it is exactly `/work/` + s |
| Router.FixedPathsDistinct | src/app/App.tsx:34-47 | the four fixed paths are pairwise different and none starts with `/work/` |
| Router.ResolvePathOf | src/app/App.tsx:33-49 | each page's own path resolves back to that page |
| Router.PathOfResolve | src/app/App.tsx:33-52 | every path that does not fall back to Home is its page's own path |
| Router.Initial | src/app/App.tsx:15-16 | before hydration the shell shows `/` (Home) with direction 0 |
| Router.PathFromHash | src/app/App.tsx:20 | the path read from the fragment is never empty; it is `/` when the fragment is "" or "#", otherwise the fragment without its first character |
| Router.Hydrate | src/app/App.tsx:19-22 | the current path becomes the path read from the fragment (`/` when nothing follows the `#`), which is never empty; direction and the fragment are untouched |
| Router.HashAfterSet | src/app/App.tsx:28 | the setter drops one leading `#` from the path it is given: the fragment reads back as the path itself when the path starts with `#` ("" for a lone `#`); every fragment is empty or starts with `#` |
| Router.Navigate | src/app/App.tsx:25-28 | navigation sets the current path to p and direction to 1; the fragment becomes `#` + p for a non-empty p not starting with `#`, and "" for an empty p |
| Router.NavigateIdempotent | src/app/App.tsx:25-28 | navigating twice to the same path gives the same state as navigating once |
| Router.HashRoundTrip | src/app/App.tsx:20-28 | hydrating from the fragment that navigation wrote gives back every non-empty path that does not start with `#` |
| Router.ReloadShowsSamePage | src/app/App.tsx:19-52 | after any navigation to such a path or to "", a reload shows the page shown before it |
| Router.HashPrefixedPathReloadsDifferently | src/app/App.tsx:20-42 | navigating to `#/work` shows Home, but a reload after it shows the work list, because the setter dropped the `#` |
| Router.HashPrefixedPathReloadsWithoutHash | src/app/App.tsx:20-28 | after navigating to any path that starts with `#` and has more after it, a reload reads back the path without that `#` |
| Router.NavigateRemountsIffNewPath | src/app/App.tsx:88-90 | the keyed page container is replaced iff the navigation target differs from the current path |
| Router.PrefersReducedMotion | src/app/App.tsx:55-57 | reduced motion holds iff a window exists and its media query matches |
| Router.PageVariants | src/app/App.tsx:59-80 | no variants iff reduced motion; otherwise the page enters from and exits to the same frame (opacity 0, scale 0.98), rests at opacity 1 and scale 1, exits faster than it enters, and both use the same easing |
| Strings.ReplacePrefixRemovesPrefix | src/app/App.tsx:40-41 | when s starts with the pattern, replacing its first occurrence with "" leaves exactly the rest after the prefix |
| Strings.Trim | src/app/pages/CaseStudyPage.tsx:135 | the result neither starts nor ends with white space |
| Strings.TrimCutsOnlyWhitespace | src/app/pages/CaseStudyPage.tsx:135 | trim only removes white space, from the two ends: the input is some white space, then the result, then more white space |
| Strings.TrimIdempotent | src/app/pages/CaseStudyPage.tsx:135 | trimming twice is trimming once |
| Seqs.Dedup | src/app/pages/WorkPage.tsx:18 | the `Set` round trip keeps each element of the input once, has no duplicates, and adds nothing |
| Seqs.DedupFirstOccurrenceOrder | src/app/pages/WorkPage.tsx:18 | the deduplicated elements keep the order of their first occurrence in the input |
| WorkPage.InitialWork | src/app/pages/WorkPage.tsx:15 | the page opens with the tag "All" selected |
| WorkPage.SelectTag | src/app/pages/WorkPage.tsx:46-58 | after a tag button is clicked, exactly that button is highlighted |
| WorkPage.ProjectTags | src/app/pages/WorkPage.tsx:18 | a tag is in the flattened tag list iff some project carries it |
| WorkPage.AllTagsCatalogue | src/app/pages/WorkPage.tsx:18 | the catalogue starts with "All"; the rest has no duplicates and holds a tag iff some project carries it |
| WorkPage.AllTagsFirstOccurrenceOrder | src/app/pages/WorkPage.tsx:18 | after "All", the tags appear in the order of their first occurrence across the projects' tag lists |
| WorkPage.FilterByTag | src/app/pages/WorkPage.tsx:23 | every kept project has the tag; a project appears as often as in the input if it has the tag and never otherwise; the result is an order-preserving subsequence of the input |
| WorkPage.FilteredProjects | src/app/pages/WorkPage.tsx:21-23 | "All" gives the whole list unchanged; any other tag gives exactly the projects carrying it, each as often as in the list, as an order-preserving subsequence |
| WorkPage.CatalogueTagNeverEmpty | src/app/pages/WorkPage.tsx:78 | for a tag chosen from the catalogue, the "no projects" message shows iff there are no projects at all |
| WorkPage.CardTarget | src/app/pages/WorkPage.tsx:72 | the path a card navigates to resolves to that card's case study |
| CaseStudyPage.FindIndex | src/app/pages/CaseStudyPage.tsx:16 | the index found is that of the first project whose slug equals the argument exactly; none is found iff no slug equals it |
| CaseStudyPage.FindBySlug | src/app/pages/CaseStudyPage.tsx:16 | the lookup returns the first listed project whose slug equals the argument, or nothing iff no project has it |
| CaseStudyPage.FindOwnSlug | src/app/pages/CaseStudyPage.tsx:16 | with unique slugs, looking up a project's own slug finds that project |
| CaseStudyPage.CaseStudyView | src/app/pages/CaseStudyPage.tsx:16-27 | the not-found view shows iff no project has the slug, and its one action leads to the work list; otherwise the view holds the first project with that slug, and its back and contact actions lead to the work list and the contact page (lines 42 and 210) |
| CaseStudyPage.Label | src/app/pages/CaseStudyPage.tsx:135 | a heading never starts or ends with white space |
| CaseStudyPage.LabelOfPlainKey | src/app/pages/CaseStudyPage.tsx:135 | for a key without white space, trimming removes only the space added before a leading capital, so such a key gets no leading space |
| CaseStudyPage.LabelRemoveSpaces | src/app/pages/CaseStudyPage.tsx:135 | removing all spaces from the heading of a key without white space gives the key back |
| CaseStudyPage.LabelLength | src/app/pages/CaseStudyPage.tsx:135 | for a key without white space, the heading is longer than the key by the number of capitals after its first character |
| CaseStudyPage.LabelOfLowerKey | src/app/pages/CaseStudyPage.tsx:135 | a key with no capital and no white space at its ends is its own heading |
| CaseStudyPage.SpaceBeforeUpperLength | src/app/pages/CaseStudyPage.tsx:135 | the regular-expression replacement adds exactly one character per capital |
| CaseStudyPage.SpaceBeforeUpperAddsSpaces | src/app/pages/CaseStudyPage.tsx:135 | the characters the replacement adds are spaces only |
| CaseStudyPage.VectorSearchHeading | src/app/pages/CaseStudyPage.tsx:135 | the key "vectorSearch" is headed "vector Search" |
| ProjectCard.InitialCard | src/app/components/ProjectCard.tsx:17-20 | a card starts unhovered with both raw offsets at 0 |
| ProjectCard.Offset | src/app/components/ProjectCard.tsx:31-38 | the offset is finite iff the extent is non-zero, and then it determines the pointer position; for a zero extent it is +infinity right of or below the origin, -infinity left of or above it, and NaN on it |
| ProjectCard.OffsetRoundTrip | src/app/components/ProjectCard.tsx:34-38 | for a non-zero extent, normalising a pointer position and mapping an offset back to a position are inverse to each other |
| ProjectCard.OffsetBounds | src/app/components/ProjectCard.tsx:31-38 | a pointer inside a box of positive size has an offset in [-0.5, 0.5], and the centre has offset 0 |
| ProjectCard.HandleMouseMove | src/app/components/ProjectCard.tsx:28-42 | without an element reference nothing changes; otherwise both offsets are computed from the element's box, and hover is untouched |
| ProjectCard.Tilt | src/app/components/ProjectCard.tsx:25-26 | the clamped transform gives no angle iff the input is NaN; +infinity gives the high end and -infinity the low end; every angle lies between the two end values |
| ProjectCard.RotationsLinearAndBounded | src/app/components/ProjectCard.tsx:25-26 | on [-0.5, 0.5], `rotateX` is -15 times the offset and `rotateY` is 15 times it, both 0 at the centre; every defined angle lies in [-7.5, 7.5] degrees |
| ProjectCard.RotationsMonotone | src/app/components/ProjectCard.tsx:25-26 | `rotateY` never decreases as the pointer moves right, and `rotateX` never increases as it moves down |
| ProjectCard.Step | src/app/components/ProjectCard.tsx:44-67 | enter sets hover only; leave clears hover and recentres both offsets; a move runs the mouse-move handler when motion is allowed and changes nothing under reduced motion |
| ProjectCard.CardStyle | src/app/components/ProjectCard.tsx:60-64 | the card has no rotation style iff reduced motion is on; otherwise `rotateX` comes from the vertical offset and `rotateY` from the horizontal one |
| ProjectCard.GlowFollowsHover | src/app/components/ProjectCard.tsx:66-71 | entering lights the card iff motion is allowed; leaving always puts the light out; a move never changes whether it is lit |
| ProjectCard.ReducedMotionStaysCentred | src/app/components/ProjectCard.tsx:60-71 | under reduced motion, no sequence of pointer events moves the offsets off the centre, and the card is never tilted or lit |
| ProjectCard.PointerOverCardStaysBounded | src/app/components/ProjectCard.tsx:28-48 | while every move lies inside a box of positive size, the offsets stay finite and within [-0.5, 0.5], so both rotations sit on the linear part of the map |
| Navbar.NavLinksAddressTheirPages | src/app/components/Navbar.tsx:13-18 | there are four links with pairwise different paths, and each path resolves to its page and back |
| Navbar.AtMostOneActive | src/app/components/Navbar.tsx:67 | at most one link is active for any current path |
| Navbar.ActiveIffFixedPath | src/app/components/Navbar.tsx:67 | some link is active iff the current path is one of the four fixed paths; on a case-study path none is |
| Navbar.InitialNavbar | src/app/components/Navbar.tsx:21-22 | the menu starts closed and the bar starts unscrolled |
| Navbar.ToggleMenu | src/app/components/Navbar.tsx:85 | the toggle flips the menu flag and leaves the scrolled flag alone |
| Navbar.ToggleTwiceRestores | src/app/components/Navbar.tsx:85 | toggling twice restores the state |
| Navbar.OnScroll | src/app/components/Navbar.tsx:26 | scrolled holds iff the page has scrolled more than 20 pixels |
| Navbar.LinkClick | src/app/components/Navbar.tsx:32-35 | a link click performs the shell's navigation and leaves the menu closed |
| Navbar.LogoClick | src/app/components/Navbar.tsx:50 | the logo click is the link click for `/`: it navigates to `/` (fragment `#/`), shows the home page, closes the menu and keeps the scrolled flag |
| Navbar.ClickedLinkIsActive | src/app/components/Navbar.tsx:62-71 | after clicking a link, its page is shown, the menu is closed, and exactly that link is active |
| ContactPage.InitialContact | src/app/pages/ContactPage.tsx:14-19 | all three fields start empty and copied is false |
| ContactPage.HandleChange | src/app/pages/ContactPage.tsx:37-42 | the named field takes the new value; the other two keep theirs |
| ContactPage.LaterChangeWins | src/app/pages/ContactPage.tsx:37-42 | of two edits to the same field only the later one counts |
| ContactPage.ChangesCommute | src/app/pages/ContactPage.tsx:37-42 | edits to different fields commute |
| ContactPage.ChangeToSameValue | src/app/pages/ContactPage.tsx:37-42 | writing back a field's own value changes nothing |
| ContactPage.OnChange | src/app/pages/ContactPage.tsx:37-42 | a change event updates the form only and leaves the copied flag alone |
| ContactPage.EmailCopied | src/app/pages/ContactPage.tsx:21-23 | a completed copy sets copied and leaves the form alone |
| ContactPage.SubjectNamesSender | src/app/pages/ContactPage.tsx:30 | the subject is "Portfolio Contact from " followed by the name |
| ContactPage.BodyRoundTrip | src/app/pages/ContactPage.tsx:31-33 | when name and email are single lines, the body parses back to the form that produced it |
| ContactPage.MailtoRoundTrip | src/app/pages/ContactPage.tsx:34 | the URI splits back into recipient, encoded subject and encoded body, provided the address has no `?` and the encoded subject no `&` |
| Site.CardOpensItsCaseStudy | src/app/components/ProjectCard.tsx:83 | clicking a card navigates to a path showing that card's case study, and the lookup there finds the same project |
| Site.NavigationScenario | src/app/App.tsx:25-52 | from any start, navigating home, then to the work list, then to the robotics case study shows those pages in turn; the fragment is `#/work/physical-ai-humanoid-robotics` and the case study is found |
| Site.UnknownSlugScenario | src/app/pages/CaseStudyPage.tsx:16-27 | `/work/does-not-exist` still routes to the case-study page, which shows the not-found view leading back to the work list |
| Site.EveryTagFindsTheProject | src/app/pages/WorkPage.tsx:21-23 | with the site's data, "All" and every tag of the one project select exactly that project, so the empty-state message never shows |

## Left out

- Animation machinery is not modelled: `AnimatePresence` exit-before-unmount
  ordering, keyframe interpolation over time, and the `useSpring`
  integrator. The model gives only the variant values, the remount
  condition, and the targets the spring settles to.
- ProjectCard.Tilt: the rotations are stated for the raw offsets, which are
  the spring's targets. The spring's intermediate values are not modelled.
- Browser effects are not modelled: `window.scrollTo`, the `matchMedia`
  read, the scroll listener's registration, `navigator.clipboard`, and the
  2000 ms reset of the copied flag. Reduced motion, `scrollY`, element boxes
  and the encoder are parameters.
- ContactPage.MailtoRoundTrip: `encodeURIComponent` is an opaque parameter.
  The lemma therefore assumes the two properties of it that it needs: no `?`
  in the address and no `&` in the encoded subject.
- Router.HashRoundTrip and Router.ReloadShowsSamePage: the browser's
  percent-encoding of the fragment is not modelled; a path is written
  verbatim, apart from a leading `#`. In a browser the round trip holds only
  for paths the fragment encoder leaves unchanged. Those are paths without
  spaces, `"`, `<`, `>`, backticks, control characters or non-ASCII
  characters. Tabs and newlines are removed from the fragment.
- The glow overlay's gradient position is not modelled. It interpolates
  the smoothed offsets as pixel values. Only whether the overlay is shown
  (`ProjectCard.GlowShown`) is modelled.
- The CSS `capitalize` transform applied to the heading is not modelled.
  `CaseStudyPage.Label` is the string before styling.
- HomePage and AboutPage are not modelled. Their only logic is a
  first-featured `find`, which is the same list search as
  `CaseStudyPage.FindBySlug`.
- Presentational components are not modelled: Button, IconButton, Link,
  SectionHeader, Footer and AnimatedBackground.
- The static content of `src/data/projects.ts` and `src/data/profile.ts` is
  not modelled beyond the record shape. The prose fields of the one project
  fixture are left empty.

=== FILE: case_study_page.dfy ===
/** The case-study page: slug lookup with its not-found branch, the page's
    navigation targets, and the labels of the architecture entries. */
module CaseStudyPage {
  import opened Options
  import opened Strings
  import opened Projects
  import Router

  /** Index of the first project whose slug equals `slug` exactly. */
  function FindIndex(ps: seq<Project>, slug: string): (r: Option<nat>)
    ensures r.Some? ==> r.value < |ps| && ps[r.value].slug == slug
    ensures r.Some? ==> forall j :: 0 <= j < r.value ==> ps[j].slug != slug
    ensures r.None? <==> forall j :: 0 <= j < |ps| ==> ps[j].slug != slug
  {
    if |ps| == 0 then None
    else if ps[0].slug == slug then Some(0)
    else
      match FindIndex(ps[1..], slug)
      case None => None
      case Some(i) => Some(i + 1)
  }

  /** `projects.find(p => p.slug === slug)`: the first project with that
      slug, or `None` for `undefined`. */
  function FindBySlug(ps: seq<Project>, slug: string): (r: Option<Project>)
    ensures r.Some? ==> r.value.slug == slug && r.value in ps
    ensures r.Some? ==>
      exists i :: 0 <= i < |ps| && ps[i] == r.value && (forall j :: 0 <= j < i ==> ps[j].slug != slug)
    ensures r.None? <==> forall j :: 0 <= j < |ps| ==> ps[j].slug != slug
  {
    match FindIndex(ps, slug)
    case None => None
    case Some(i) => Some(ps[i])
  }

  /** With unique slugs, looking up a project's own slug finds that project. */
  lemma FindOwnSlug(ps: seq<Project>, i: nat)
    requires UniqueSlugs(ps) && i < |ps|
    ensures FindBySlug(ps, ps[i].slug) == Some(ps[i])
  {
    var k := FindIndex(ps, ps[i].slug);
    assert k.Some?;
  }

  /** What the page renders: the not-found message with its single action,
      or the case study with a back button and a call to action. The actions
      are the paths handed to `onNavigate`. */
  datatype View =
    | NotFound(backTarget: string)
    | Detail(project: Project, backTarget: string, ctaTarget: string)

  function CaseStudyView(ps: seq<Project>, slug: string): (v: View)
    ensures v.NotFound? <==> forall j :: 0 <= j < |ps| ==> ps[j].slug != slug
    ensures v.Detail? ==> v.project.slug == slug && v.project in ps
    ensures v.Detail? ==>
      exists i :: 0 <= i < |ps| && ps[i] == v.project && (forall j :: 0 <= j < i ==> ps[j].slug != slug)
    ensures Router.Resolve(v.backTarget) == Router.WorkList
    ensures v.Detail? ==> Router.Resolve(v.ctaTarget) == Router.Contact
  {
    Router.ResolveRules(Router.WorkPath);
    Router.ResolveRules(Router.ContactPath);
    match FindBySlug(ps, slug)
    case None => NotFound(Router.WorkPath)
    case Some(p) => Detail(p, Router.WorkPath, Router.ContactPath)
  }

  /** `[A-Z]` in a regular expression without the `i` flag. */
  predicate IsUpper(c: char) {
    'A' <= c <= 'Z'
  }

  /** `key.replace(/([A-Z])/g, ' $1')`: a space in front of every capital. */
  function SpaceBeforeUpper(s: string): string {
    if |s| == 0 then ""
    else (if IsUpper(s[0]) then [' ', s[0]] else [s[0]]) + SpaceBeforeUpper(s[1..])
  }

  /** The heading shown for an architecture key. */
  function Label(key: string): (heading: string)
    ensures Trimmed(heading)
  {
    Trim(SpaceBeforeUpper(key))
  }

  function CountUpper(s: string): nat {
    if |s| == 0 then 0 else (if IsUpper(s[0]) then 1 else 0) + CountUpper(s[1..])
  }

  /** `s` with every U+0020 space taken out. */
  function RemoveSpaces(s: string): (r: string)
    ensures ' ' !in r
  {
    if |s| == 0 then "" else (if s[0] == ' ' then "" else [s[0]]) + RemoveSpaces(s[1..])
  }

  lemma {:induction false} RemoveSpacesAppend(a: string, b: string)
    ensures RemoveSpaces(a + b) == RemoveSpaces(a) + RemoveSpaces(b)
  {
    if |a| == 0 {
      assert a + b == b;
    } else {
      assert (a + b)[0] == a[0];
      assert (a + b)[1..] == a[1..] + b;
      RemoveSpacesAppend(a[1..], b);
    }
  }

  /** The replacement adds exactly one character per capital. */
  lemma {:induction false} SpaceBeforeUpperLength(s: string)
    ensures |SpaceBeforeUpper(s)| == |s| + CountUpper(s)
  {
    if |s| > 0 {
      SpaceBeforeUpperLength(s[1..]);
    }
  }

  /** The characters it adds are spaces, and only spaces. */
  lemma {:induction false} SpaceBeforeUpperAddsSpaces(s: string)
    ensures RemoveSpaces(SpaceBeforeUpper(s)) == RemoveSpaces(s)
  {
    if |s| > 0 {
      var head: string := if IsUpper(s[0]) then [' ', s[0]] else [s[0]];
      SpaceBeforeUpperAddsSpaces(s[1..]);
      RemoveSpacesAppend(head, SpaceBeforeUpper(s[1..]));
      if IsUpper(s[0]) {
        RemoveSpacesAppend([' '], [s[0]]);
        assert [' ', s[0]] == [' '] + [s[0]];
      }
    }
  }

  /** The key's last character stays last. */
  lemma {:induction false} SpaceBeforeUpperLast(s: string)
    requires |s| > 0
    ensures |SpaceBeforeUpper(s)| > 0
    ensures SpaceBeforeUpper(s)[|SpaceBeforeUpper(s)| - 1] == s[|s| - 1]
  {
    if |s| > 1 {
      SpaceBeforeUpperLast(s[1..]);
      assert s[1..][|s[1..]| - 1] == s[|s| - 1];
    }
  }

  /** A key without capitals is left as it was by the replacement. */
  lemma {:induction false} SpaceBeforeUpperNoCapitals(s: string)
    requires CountUpper(s) == 0
    ensures SpaceBeforeUpper(s) == s
  {
    if |s| > 0 {
      SpaceBeforeUpperNoCapitals(s[1..]);
    }
  }

  /** For a key without white space `trim` can only remove the space the
      replacement put in front of a leading capital: the tail never ends in
      white space. */
  lemma LabelOfPlainKey(key: string)
    requires NoWhitespace(key)
    ensures Label(key) ==
      if |key| > 0 && IsUpper(key[0]) then SpaceBeforeUpper(key)[1..] else SpaceBeforeUpper(key)
  {
    var t := SpaceBeforeUpper(key);
    if |key| > 0 {
      SpaceBeforeUpperLast(key);
      var head: string := if IsUpper(key[0]) then [' ', key[0]] else [key[0]];
      assert t == head + SpaceBeforeUpper(key[1..]);
      var u := if IsUpper(key[0]) then t[1..] else t;
      assert !IsWhitespace(key[0]);
      assert TrimStart(t) == u by {
        if IsUpper(key[0]) {
          assert IsWhitespace(t[0]);
          assert TrimStart(t) == TrimStart(t[1..]);
          assert t[1..][0] == key[0];
        } else {
          assert t[0] == key[0];
        }
      }
      assert TrimEnd(u) == u by {
        assert !IsWhitespace(key[|key| - 1]);
        assert u[|u| - 1] == t[|t| - 1];
      }
    }
  }

  /** Taking the spaces back out of a label gives the key again, for every
      key without white space. */
  lemma LabelRemoveSpaces(key: string)
    requires NoWhitespace(key)
    ensures RemoveSpaces(Label(key)) == key
  {
    var t := SpaceBeforeUpper(key);
    SpaceBeforeUpperAddsSpaces(key);
    LabelOfPlainKey(key);
    NoSpacesUnchanged(key);
    if |key| > 0 && IsUpper(key[0]) {
      assert t == [' '] + t[1..];
      RemoveSpacesAppend([' '], t[1..]);
    }
  }

  /** A string without spaces is unchanged by removing them. */
  lemma {:induction false} NoSpacesUnchanged(s: string)
    requires NoWhitespace(s)
    ensures RemoveSpaces(s) == s
  {
    if |s| > 0 {
      assert NoWhitespace(s[1..]) by {
        forall i | 0 <= i < |s[1..]| ensures !IsWhitespace(s[1..][i]) {
          assert s[1..][i] == s[i + 1];
        }
      }
      NoSpacesUnchanged(s[1..]);
    }
  }

  /** A label is one character longer than its key for every capital that is
      not the key's first character. */
  lemma LabelLength(key: string)
    requires NoWhitespace(key)
    ensures |Label(key)| == |key| + (if |key| == 0 then 0 else CountUpper(key[1..]))
  {
    SpaceBeforeUpperLength(key);
    LabelOfPlainKey(key);
  }

  /** A key without capitals and without white space at its ends is its own
      label. */
  lemma LabelOfLowerKey(key: string)
    requires CountUpper(key) == 0 && Trimmed(key)
    ensures Label(key) == key
  {
    SpaceBeforeUpperNoCapitals(key);
    TrimOfTrimmed(key);
  }

  /** The replacement works on each part of a split key separately. */
  lemma {:induction false} SpaceBeforeUpperAppend(a: string, b: string)
    ensures SpaceBeforeUpper(a + b) == SpaceBeforeUpper(a) + SpaceBeforeUpper(b)
  {
    if |a| == 0 {
      assert a + b == b;
    } else {
      assert (a + b)[0] == a[0];
      assert (a + b)[1..] == a[1..] + b;
      SpaceBeforeUpperAppend(a[1..], b);
    }
  }

  /** The worked example, step by step: the key splits before its capital,
      the lower-case half is unchanged, the capital half gains a space. */
  lemma VectorSearchSplit()
    ensures SpaceBeforeUpper("vectorSearch") ==
      SpaceBeforeUpper("vector") + SpaceBeforeUpper("Search")
  {
    assert "vectorSearch" == "vector" + "Search";
    SpaceBeforeUpperAppend("vector", "Search");
  }

  lemma VectorUnchanged()
    ensures SpaceBeforeUpper("vector") == "vector"
  {
    SpaceBeforeUpperNoCapitals("vector");
  }

  lemma SearchGetsSpace()
    ensures SpaceBeforeUpper("Search") == " Search"
  {
    SpaceBeforeUpperNoCapitals("earch");
    assert "Search" == ['S'] + "earch";
  }

  lemma VectorSearchSpaced()
    ensures SpaceBeforeUpper("vectorSearch") == "vector Search"
  {
    VectorSearchSplit();
    VectorUnchanged();
    SearchGetsSpace();
  }

  /** "vectorSearch" is headed "vector Search". */
  lemma VectorSearchHeading()
    ensures Label("vectorSearch") == "vector Search"
  {
    VectorSearchSpaced();
    TrimOfTrimmed("vector Search");
  }
}

=== FILE: contact_page.dfy ===
/** The contact page: the form record and its change handler, the copied
    flag, and the `mailto` URI (section 2 of RFC 6068) the form submits to.
    `encodeURIComponent` is a parameter: nothing is assumed about it beyond
    what a lemma states in its own requires. */
module ContactPage {
  import opened Options
  import opened Strings

  datatype Form = Form(name: string, email: string, message: string)

  /** The `name` attributes of the three inputs. */
  datatype Field = Name | Email | Message

  function Get(f: Form, field: Field): string {
    match field
    case Name => f.name
    case Email => f.email
    case Message => f.message
  }

  /** `handleChange`: the field named by the input takes the new value; the
      other two keep theirs. */
  function HandleChange(f: Form, field: Field, value: string): (f': Form)
    ensures Get(f', field) == value
    ensures forall g :: g != field ==> Get(f', g) == Get(f, g)
  {
    match field
    case Name => f.(name := value)
    case Email => f.(email := value)
    case Message => f.(message := value)
  }

  /** Of two edits to the same field only the later one counts. */
  lemma LaterChangeWins(f: Form, field: Field, v1: string, v2: string)
    ensures HandleChange(HandleChange(f, field, v1), field, v2) == HandleChange(f, field, v2)
  {
  }

  /** Edits to different fields do not interfere, whatever their order. */
  lemma ChangesCommute(f: Form, a: Field, va: string, b: Field, vb: string)
    requires a != b
    ensures HandleChange(HandleChange(f, a, va), b, vb) == HandleChange(HandleChange(f, b, vb), a, va)
  {
  }

  /** Writing back a field's own value changes nothing. */
  lemma ChangeToSameValue(f: Form, field: Field)
    ensures HandleChange(f, field, Get(f, field)) == f
  {
  }

  datatype ContactState = ContactState(form: Form, copied: bool)

  function InitialContact(): (st: ContactState)
    ensures forall g :: Get(st.form, g) == ""
    ensures !st.copied
  {
    ContactState(Form("", "", ""), false)
  }

  /** The change event on one of the inputs. */
  function OnChange(st: ContactState, field: Field, value: string): (st': ContactState)
    ensures st'.form == HandleChange(st.form, field, value) && st'.copied == st.copied
  {
    st.(form := HandleChange(st.form, field, value))
  }

  /** `handleCopyEmail` once the clipboard write has completed. */
  function EmailCopied(st: ContactState): (st': ContactState)
    ensures st'.copied && st'.form == st.form
  {
    st.(copied := true)
  }

  const SubjectPrefix: string := "Portfolio Contact from "
  const NameLabel: string := "Name: "
  const EmailLabel: string := "\nEmail: "
  const MessageLabel: string := "\n\nMessage:\n"

  /** The subject line before encoding. */
  function Subject(f: Form): string {
    SubjectPrefix + f.name
  }

  /** The body before encoding: the name, the email and the message, each
      under its own label. */
  function Body(f: Form): string {
    NameLabel + f.name + EmailLabel + f.email + MessageLabel + f.message
  }

  /** Reads a body back: the name up to the first line break, the email up
      to the next one, the message after its label. */
  function ParseBody(body: string): Option<Form> {
    match TakeLabelled(body, NameLabel, '\n')
    case None => None
    case Some((name, rest)) =>
      match TakeLabelled(rest, EmailLabel, '\n')
      case None => None
      case Some((email, rest')) =>
        match StripPrefix(rest', MessageLabel)
        case None => None
        case Some(message) => Some(Form(name, email, message))
  }

  /** The subject names the sender: dropping the fixed prefix gives the name. */
  lemma SubjectNamesSender(f: Form)
    ensures StripPrefix(Subject(f), SubjectPrefix) == Some(f.name)
  {
    StripPrefixOfConcat(SubjectPrefix, f.name);
  }

  /** The body loses nothing: when the name and the email are single lines,
      reading the body back gives the form that produced it. */
  lemma BodyRoundTrip(f: Form)
    requires '\n' !in f.name && '\n' !in f.email
    ensures ParseBody(Body(f)) == Some(f)
  {
    var tail := MessageLabel + f.message;
    var rest := EmailLabel + f.email + tail;
    assert Body(f) == NameLabel + f.name + rest;
    TakeLabelledRoundTrip(NameLabel, f.name, '\n', rest);
    TakeLabelledRoundTrip(EmailLabel, f.email, '\n', tail);
    StripPrefixOfConcat(MessageLabel, f.message);
  }

  const Scheme: string := "mailto:"
  const SubjectField: string := "?subject="
  const BodyField: string := "&body="

  /** `handleSubmit`: the address the browser is sent to. */
  function MailtoHref(profileEmail: string, encode: string -> string, f: Form): string {
    Scheme + profileEmail + SubjectField + encode(Subject(f)) + BodyField + encode(Body(f))
  }

  /** Splits a `mailto` URI of this shape into the recipient and the two
      encoded header values. */
  function ParseMailto(href: string): Option<(string, string, string)> {
    match TakeLabelled(href, Scheme, '?')
    case None => None
    case Some((to, rest)) =>
      match TakeLabelled(rest, SubjectField, '&')
      case None => None
      case Some((subject, rest')) =>
        match StripPrefix(rest', BodyField)
        case None => None
        case Some(body) => Some((to, subject, body))
  }

  /** The URI carries the recipient, the encoded subject and the encoded body
      intact, provided the address has no `?` and the encoded subject no `&`
      (`encodeURIComponent` escapes both). */
  lemma MailtoRoundTrip(profileEmail: string, encode: string -> string, f: Form)
    requires '?' !in profileEmail && '&' !in encode(Subject(f))
    ensures ParseMailto(MailtoHref(profileEmail, encode, f)) ==
      Some((profileEmail, encode(Subject(f)), encode(Body(f))))
  {
    var es := encode(Subject(f));
    var eb := encode(Body(f));
    var tail := BodyField + eb;
    var rest := SubjectField + es + tail;
    assert MailtoHref(profileEmail, encode, f) == Scheme + profileEmail + rest;
    TakeLabelledRoundTrip(Scheme, profileEmail, '?', rest);
    TakeLabelledRoundTrip(SubjectField, es, '&', tail);
    StripPrefixOfConcat(BodyField, eb);
  }
}

=== FILE: navbar.dfy ===
/** The navigation bar: its four links, which of them is marked active, link
    and logo clicks, the mobile menu toggle and the scrolled flag. */
module Navbar {
  import Router

  datatype NavLink = NavLink(name: string, path: string)

  /** `navLinks`, in display order. */
  const NavLinks: seq<NavLink> := [
    NavLink("Home", Router.HomePath),
    NavLink("Work", Router.WorkPath),
    NavLink("About", Router.AboutPath),
    NavLink("Contact", Router.ContactPath)
  ]

  /** The page each link leads to, in the same order. */
  const LinkPages: seq<Router.Page> := [Router.Home, Router.WorkList, Router.About, Router.Contact]

  /** A link is highlighted when the current path is its path, character for
      character. */
  predicate IsActive(currentPath: string, link: NavLink) {
    currentPath == link.path
  }

  /** The links have pairwise different paths, and each path is the page's
      own address: it resolves to that page and back. */
  lemma NavLinksAddressTheirPages()
    ensures |NavLinks| == |LinkPages| == 4
    ensures forall i, j :: 0 <= i < j < |NavLinks| ==> NavLinks[i].path != NavLinks[j].path
    ensures forall i :: 0 <= i < |NavLinks| ==>
      Router.Resolve(NavLinks[i].path) == LinkPages[i] && Router.PathOf(LinkPages[i]) == NavLinks[i].path
  {
    Router.FixedPathsDistinct();
    forall i | 0 <= i < |NavLinks|
      ensures Router.Resolve(NavLinks[i].path) == LinkPages[i]
    {
      Router.ResolvePathOf(LinkPages[i]);
    }
  }

  /** At most one link is active, whatever the current path. */
  lemma AtMostOneActive(currentPath: string, i: nat, j: nat)
    requires i < |NavLinks| && j < |NavLinks|
    requires IsActive(currentPath, NavLinks[i]) && IsActive(currentPath, NavLinks[j])
    ensures i == j
  {
    NavLinksAddressTheirPages();
  }

  /** Some link is active exactly when the current path is one of the four
      fixed paths; on a case-study path none is. */
  lemma ActiveIffFixedPath(currentPath: string)
    ensures (exists i :: 0 <= i < |NavLinks| && IsActive(currentPath, NavLinks[i])) <==>
      currentPath in {Router.HomePath, Router.WorkPath, Router.AboutPath, Router.ContactPath}
    ensures Router.Resolve(currentPath).CaseStudy? ==>
      forall i :: 0 <= i < |NavLinks| ==> !IsActive(currentPath, NavLinks[i])
  {
    if currentPath == Router.HomePath {
      assert IsActive(currentPath, NavLinks[0]);
    } else if currentPath == Router.WorkPath {
      assert IsActive(currentPath, NavLinks[1]);
    } else if currentPath == Router.AboutPath {
      assert IsActive(currentPath, NavLinks[2]);
    } else if currentPath == Router.ContactPath {
      assert IsActive(currentPath, NavLinks[3]);
    }
    Router.ResolveRules(currentPath);
    Router.FixedPathsDistinct();
  }

  /** The bar's own state. */
  datatype NavbarState = NavbarState(mobileMenuOpen: bool, scrolled: bool)

  function InitialNavbar(): (st: NavbarState)
    ensures !st.mobileMenuOpen && !st.scrolled
  {
    NavbarState(false, false)
  }

  /** The mobile menu button. */
  function ToggleMenu(st: NavbarState): (st': NavbarState)
    ensures st'.mobileMenuOpen != st.mobileMenuOpen && st'.scrolled == st.scrolled
  {
    st.(mobileMenuOpen := !st.mobileMenuOpen)
  }

  lemma ToggleTwiceRestores(st: NavbarState)
    ensures ToggleMenu(ToggleMenu(st)) == st
  {
  }

  /** The scroll listener: the bar turns opaque once the page has scrolled
      more than 20 pixels. */
  function OnScroll(st: NavbarState, scrollY: real): (st': NavbarState)
    ensures st'.scrolled <==> scrollY > 20.0
    ensures st'.mobileMenuOpen == st.mobileMenuOpen
  {
    st.(scrolled := scrollY > 20.0)
  }

  /** `handleLinkClick`: navigate, then close the mobile menu. */
  function LinkClick(app: Router.AppState, st: NavbarState, path: string)
    : (r: (Router.AppState, NavbarState))
    ensures r.0 == Router.Navigate(app, path)
    ensures !r.1.mobileMenuOpen && r.1.scrolled == st.scrolled
  {
    (Router.Navigate(app, path), st.(mobileMenuOpen := false))
  }

  /** The name in the corner takes the visitor home. */
  function LogoClick(app: Router.AppState, st: NavbarState): (r: (Router.AppState, NavbarState))
    ensures r == LinkClick(app, st, Router.HomePath)
    ensures Router.Displayed(r.0) == Router.Home && !r.1.mobileMenuOpen
  {
    LinkClick(app, st, Router.HomePath)
  }

  /** After clicking link `i` the shell shows that link's page, the menu is
      closed, and link `i` is the only active one. */
  lemma ClickedLinkIsActive(app: Router.AppState, st: NavbarState, i: nat)
    requires i < |NavLinks|
    ensures var r := LinkClick(app, st, NavLinks[i].path);
      && Router.Displayed(r.0) == LinkPages[i]
      && !r.1.mobileMenuOpen
      && forall j :: 0 <= j < |NavLinks| ==> (IsActive(r.0.currentPath, NavLinks[j]) <==> j == i)
  {
    NavLinksAddressTheirPages();
  }
}

=== FILE: options.dfy ===
/** An optional value: the model's stand-in for `undefined` results such as
    a failed `Array.prototype.find` or a missing element reference. */
module Options {

  datatype Option<+T> = None | Some(value: T)
}

=== FILE: project_card.dfy ===
/** The project card's pointer interaction: the cursor offset normalised by
    the card's box, the two rotations derived from it, and the hover and
    reduced-motion gating. Arithmetic is over `real`; the spring that smooths
    the offsets is not modelled, so the rotations here are the values the
    spring settles to. */
module ProjectCard {
  import opened Options
  import opened Projects

  /** A number the offset computation can produce. Dividing by a zero extent
      (taken as +0, as a layout box reports it) gives an infinity, or NaN
      when the pointer offset is zero as well; subtracting 0.5 keeps it so. */
  datatype Ratio = Finite(value: real) | PosInfinity | NegInfinity | NaN

  /** The element's bounding box, in client coordinates. */
  datatype Rect = Rect(left: real, top: real, width: real, height: real)

  /** The per-card state: `isHovered` and the two raw motion values. */
  datatype CardState = CardState(hovered: bool, x: Ratio, y: Ratio)

  const Centre: Ratio := Finite(0.0)

  function InitialCard(): (st: CardState)
    ensures !st.hovered && st.x == Centre && st.y == Centre
  {
    CardState(false, Centre, Centre)
  }

  /** `mouse / extent - 0.5` with `mouse = client - origin`. */
  function Offset(client: real, origin: real, extent: real): (pct: Ratio)
    ensures extent != 0.0 <==> pct.Finite?
    ensures pct.Finite? ==> client == origin + (pct.value + 0.5) * extent
    ensures pct.NaN? <==> extent == 0.0 && client == origin
    ensures extent == 0.0 && client > origin ==> pct == PosInfinity
    ensures extent == 0.0 && client < origin ==> pct == NegInfinity
  {
    var mouse := client - origin;
    if extent != 0.0 then Finite(mouse / extent - 0.5)
    else if mouse > 0.0 then PosInfinity
    else if mouse < 0.0 then NegInfinity
    else NaN
  }

  /** The client coordinate that lies at normalised offset `pct` of a box. */
  function PointerAt(pct: real, origin: real, extent: real): real {
    origin + (pct + 0.5) * extent
  }

  /** Normalising is undone by `PointerAt`, and the other way round, for any
      box of non-zero extent. */
  lemma OffsetRoundTrip(client: real, pct: real, origin: real, extent: real)
    requires extent != 0.0
    ensures Offset(PointerAt(pct, origin, extent), origin, extent) == Finite(pct)
    ensures PointerAt(Offset(client, origin, extent).value, origin, extent) == client
  {
    var mouse := PointerAt(pct, origin, extent) - origin;
    assert mouse == (pct + 0.5) * extent;
    DivideProduct(pct + 0.5, extent);
  }

  lemma DivideProduct(a: real, e: real)
    requires e != 0.0
    ensures (a * e) / e == a
  {
    var q := (a * e) / e;
    assert q * e == a * e;
    assert (q - a) * e == 0.0;
  }

  /** A pointer inside a box of positive extent lies within half the extent
      of its centre, and the centre itself is offset zero. */
  lemma OffsetBounds(client: real, origin: real, extent: real)
    requires extent > 0.0 && origin <= client <= origin + extent
    ensures Offset(client, origin, extent).Finite?
    ensures -0.5 <= Offset(client, origin, extent).value <= 0.5
    ensures client == origin + extent / 2.0 ==> Offset(client, origin, extent) == Centre
  {
    var mouse := client - origin;
    var q := mouse / extent;
    assert q * extent == mouse;
    if q < 0.0 {
      assert q * extent < 0.0;
    }
    if q > 1.0 {
      assert q * extent > extent;
    }
  }

  /** `handleMouseMove`: without an element reference nothing happens;
      otherwise both raw motion values are set from the element's box. */
  function HandleMouseMove(st: CardState, element: Option<Rect>, clientX: real, clientY: real)
    : (st': CardState)
    ensures st'.hovered == st.hovered
    ensures element.None? ==> st' == st
    ensures element.Some? ==>
      st'.x == Offset(clientX, element.value.left, element.value.width) &&
      st'.y == Offset(clientY, element.value.top, element.value.height)
  {
    match element
    case None => st
    case Some(r) => st.(x := Offset(clientX, r.left, r.width), y := Offset(clientY, r.top, r.height))
  }

  /** The clamped linear map `useTransform` applies to a motion value on
      input range [-0.5, 0.5]: `atLow` at or below -0.5, `atHigh` at or above
      0.5, a straight line in between; a NaN input yields no angle. */
  function Tilt(v: Ratio, atLow: real, atHigh: real): (deg: Option<real>)
    ensures v.NaN? <==> deg.None?
    ensures v.PosInfinity? ==> deg == Some(atHigh)
    ensures v.NegInfinity? ==> deg == Some(atLow)
    ensures deg.Some? ==>
      (atLow <= deg.value <= atHigh) || (atHigh <= deg.value <= atLow)
  {
    match v
    case NaN => None
    case PosInfinity => Some(atHigh)
    case NegInfinity => Some(atLow)
    case Finite(p) =>
      if p <= -0.5 then Some(atLow)
      else if 0.5 <= p then Some(atHigh)
      else
        var t := p + 0.5;
        assert 0.0 < t < 1.0;
        FractionBetween(t, atLow, atHigh);
        Some(atLow + t * (atHigh - atLow))
  }

  /** A point `t` of the way from `a` to `b` lies between them. */
  lemma FractionBetween(t: real, a: real, b: real)
    requires 0.0 <= t <= 1.0
    ensures (a <= a + t * (b - a) <= b) || (b <= a + t * (b - a) <= a)
  {
    if a <= b {
      assert t * (b - a) <= 1.0 * (b - a);
    } else {
      assert t * (a - b) <= 1.0 * (a - b);
    }
  }

  /** `rotateX`: the vertical offset mapped to 7.5 degrees at the top edge
      and -7.5 degrees at the bottom edge. */
  function RotateX(y: Ratio): Option<real> {
    Tilt(y, 7.5, -7.5)
  }

  /** `rotateY`: the horizontal offset mapped to -7.5 degrees at the left
      edge and 7.5 degrees at the right edge. */
  function RotateY(x: Ratio): Option<real> {
    Tilt(x, -7.5, 7.5)
  }

  /** Over the card both rotations are linear with slope 15 degrees per unit
      of offset, `rotateX` inverted, zero at the centre; everywhere they stay
      within 7.5 degrees either way. */
  lemma RotationsLinearAndBounded(v: Ratio)
    ensures v.Finite? && -0.5 <= v.value <= 0.5 ==>
      RotateX(v) == Some(-15.0 * v.value) && RotateY(v) == Some(15.0 * v.value)
    ensures RotateX(Centre) == Some(0.0) && RotateY(Centre) == Some(0.0)
    ensures RotateX(v).Some? ==> -7.5 <= RotateX(v).value <= 7.5
    ensures RotateY(v).Some? ==> -7.5 <= RotateY(v).value <= 7.5
  {
  }

  /** Moving the pointer right never turns the card less to the right, and
      moving it down never tilts the top edge further towards the viewer. */
  lemma RotationsMonotone(a: real, b: real)
    requires a <= b
    ensures RotateY(Finite(a)).value <= RotateY(Finite(b)).value
    ensures RotateX(Finite(b)).value <= RotateX(Finite(a)).value
  {
  }

  /** The pointer events the card listens to. */
  datatype PointerEvent = Move(clientX: real, clientY: real) | Enter | Leave

  /** One event. Under reduced motion no move handler is attached, so moves
      are ignored; entering sets the hover flag; leaving clears it and puts
      both motion values back at the centre. */
  function Step(st: CardState, reducedMotion: bool, element: Option<Rect>, ev: PointerEvent)
    : (st': CardState)
    ensures ev.Enter? ==> st' == st.(hovered := true)
    ensures ev.Leave? ==> st' == CardState(false, Centre, Centre)
    ensures ev.Move? && reducedMotion ==> st' == st
    ensures ev.Move? && !reducedMotion ==> st' == HandleMouseMove(st, element, ev.clientX, ev.clientY)
  {
    match ev
    case Move(cx, cy) => if reducedMotion then st else HandleMouseMove(st, element, cx, cy)
    case Enter => st.(hovered := true)
    case Leave => CardState(false, Centre, Centre)
  }

  /** A sequence of events, oldest first. */
  function Run(st: CardState, reducedMotion: bool, element: Option<Rect>, evs: seq<PointerEvent>)
    : CardState
    decreases |evs|
  {
    if |evs| == 0 then st else Run(Step(st, reducedMotion, element, evs[0]), reducedMotion, element, evs[1..])
  }

  /** What the card's style holds: nothing under reduced motion, otherwise
      the two rotations. */
  datatype Style = Flat | Tilted(rotateX: Option<real>, rotateY: Option<real>)

  function CardStyle(st: CardState, reducedMotion: bool): (s: Style)
    ensures reducedMotion <==> s.Flat?
    ensures s.Tilted? ==> s.rotateX == RotateX(st.y) && s.rotateY == RotateY(st.x)
  {
    if reducedMotion then Flat else Tilted(RotateX(st.y), RotateY(st.x))
  }

  /** The spotlight overlay is rendered only with motion allowed and the
      pointer over the card. */
  predicate GlowShown(st: CardState, reducedMotion: bool) {
    !reducedMotion && st.hovered
  }

  /** Entering lights the card exactly when motion is allowed; leaving
      always puts the light out; a move never changes whether it is lit. */
  lemma GlowFollowsHover(st: CardState, reducedMotion: bool, element: Option<Rect>, cx: real, cy: real)
    ensures GlowShown(Step(st, reducedMotion, element, Enter), reducedMotion) <==> !reducedMotion
    ensures !GlowShown(Step(st, reducedMotion, element, Leave), reducedMotion)
    ensures GlowShown(Step(st, reducedMotion, element, Move(cx, cy)), reducedMotion) <==>
      GlowShown(st, reducedMotion)
  {
  }

  /** Under reduced motion no pointer activity moves the motion values off
      the centre, and the card is never tilted nor lit. */
  lemma {:induction false} ReducedMotionStaysCentred(st: CardState, element: Option<Rect>, evs: seq<PointerEvent>)
    requires st.x == Centre && st.y == Centre
    ensures Run(st, true, element, evs).x == Centre && Run(st, true, element, evs).y == Centre
    ensures CardStyle(Run(st, true, element, evs), true) == Flat
    ensures !GlowShown(Run(st, true, element, evs), true)
    decreases |evs|
  {
    if |evs| > 0 {
      ReducedMotionStaysCentred(Step(st, true, element, evs[0]), element, evs[1..]);
    }
  }

  /** The pointer lies within the box. */
  predicate Inside(r: Rect, ev: PointerEvent) {
    ev.Move? ==>
      r.left <= ev.clientX <= r.left + r.width && r.top <= ev.clientY <= r.top + r.height
  }

  /** Both motion values are finite and within half a box of the centre. */
  predicate Bounded(st: CardState) {
    st.x.Finite? && st.y.Finite? &&
    -0.5 <= st.x.value <= 0.5 && -0.5 <= st.y.value <= 0.5
  }

  /** While the pointer stays over a card of positive size, the motion values
      stay bounded, and so the rotations are defined and lie on the linear
      part of the map. */
  lemma {:induction false} PointerOverCardStaysBounded(
    st: CardState, reducedMotion: bool, r: Rect, evs: seq<PointerEvent>)
    requires r.width > 0.0 && r.height > 0.0
    requires Bounded(st)
    requires forall i :: 0 <= i < |evs| ==> Inside(r, evs[i])
    ensures Bounded(Run(st, reducedMotion, Some(r), evs))
    ensures var end := Run(st, reducedMotion, Some(r), evs);
      RotateX(end.y) == Some(-15.0 * end.y.value) && RotateY(end.x) == Some(15.0 * end.x.value)
    decreases |evs|
  {
    if |evs| == 0 {
      RotationsLinearAndBounded(st.x);
      RotationsLinearAndBounded(st.y);
    } else {
      var next := Step(st, reducedMotion, Some(r), evs[0]);
      if evs[0].Move? && !reducedMotion {
        assert Inside(r, evs[0]);
        OffsetBounds(evs[0].clientX, r.left, r.width);
        OffsetBounds(evs[0].clientY, r.top, r.height);
      }
      assert Bounded(next);
      assert forall i :: 0 <= i < |evs[1..]| ==> Inside(r, evs[1..][i]) by {
        forall i | 0 <= i < |evs[1..]| ensures Inside(r, evs[1..][i]) {
          assert evs[1..][i] == evs[i + 1];
        }
      }
      PointerOverCardStaysBounded(next, reducedMotion, r, evs[1..]);
    }
  }

  /** Clicking the card body hands the card's own slug to the navigation
      callback it was given. */
  function ClickedSlug(p: Project): string {
    p.slug
  }
}

=== FILE: projects.dfy ===
/** The shape of the project records the pages read. The records themselves
    are static content; the model only needs their shape and, for the list
    operations, that slugs identify projects. */
module Projects {

  /** The six architecture entries of a case study, in declaration order. */
  datatype Architecture = Architecture(
    frontend: string,
    backend: string,
    database: string,
    vectorSearch: string,
    ai: string,
    auth: string)

  datatype CaseStudy = CaseStudy(
    overview: string,
    problem: string,
    goal: string,
    myRole: string,
    solution: string,
    keyFeatures: seq<string>,
    architecture: Architecture,
    technicalHighlights: seq<string>,
    outcome: seq<string>,
    nextSteps: seq<string>,
    resumeBullets: seq<string>)

  datatype Project = Project(
    id: string,
    title: string,
    slug: string,
    summary: string,
    tags: seq<string>,
    repo: string,
    featured: bool,
    caseStudy: CaseStudy)

  /** No two projects share a slug, which is what makes a slug an address. */
  predicate UniqueSlugs(ps: seq<Project>) {
    forall i, j :: 0 <= i < j < |ps| ==> ps[i].slug != ps[j].slug
  }
}

=== FILE: router.dfy ===
/** The application shell: path resolution, navigation state, hydration from
    the URL fragment (section 3.5 of RFC 3986) and the page transition
    variants. */
module Router {
  import opened Options
  import opened Strings

  /** The page the shell renders. Unknown paths have no page of their own:
      they fall back to `Home`. */
  datatype Page = Home | WorkList | CaseStudy(slug: string) | About | Contact

  const HomePath: string := "/"
  const WorkPath: string := "/work"
  const WorkPrefix: string := "/work/"
  const AboutPath: string := "/about"
  const ContactPath: string := "/contact"

  /** The rules of `getPageComponent`, tried in order; anything else renders
      the home page. The case-study slug is what `replace('/work/', '')`
      leaves, that is, the path with the first occurrence of the prefix cut. */
  function Resolve(path: string): Page {
    if path == HomePath then Home
    else if path == WorkPath then WorkList
    else if StartsWith(path, WorkPrefix) then CaseStudy(ReplaceFirst(path, WorkPrefix, ""))
    else if path == AboutPath then About
    else if path == ContactPath then Contact
    else Home
  }

  /** The one path each page is addressed by. */
  function PathOf(page: Page): string {
    match page
    case Home => HomePath
    case WorkList => WorkPath
    case CaseStudy(slug) => WorkPrefix + slug
    case About => AboutPath
    case Contact => ContactPath
  }

  /** Every string after `/work/`, the empty one included, is taken as a slug
      verbatim. */
  lemma ResolveCaseStudy(slug: string)
    ensures Resolve(WorkPrefix + slug) == CaseStudy(slug)
  {
    var path := WorkPrefix + slug;
    assert path[..|WorkPrefix|] == WorkPrefix;
    ReplacePrefixRemovesPrefix(path, WorkPrefix);
    assert path[|WorkPrefix|..] == slug;
  }

  /** A path shows a case study exactly when it is `/work/` followed by the
      slug. */
  lemma ResolveCaseStudyIff(path: string, slug: string)
    ensures Resolve(path) == CaseStudy(slug) <==> path == WorkPrefix + slug
  {
    if path == WorkPrefix + slug {
      ResolveCaseStudy(slug);
    } else if Resolve(path) == CaseStudy(slug) {
      assert StartsWith(path, WorkPrefix);
      ReplacePrefixRemovesPrefix(path, WorkPrefix);
    }
  }

  /** None of the fixed paths other than the work list could be mistaken for
      a case study, and they are pairwise different. */
  lemma FixedPathsDistinct()
    ensures !StartsWith(HomePath, WorkPrefix) && !StartsWith(WorkPath, WorkPrefix)
    ensures !StartsWith(AboutPath, WorkPrefix) && !StartsWith(ContactPath, WorkPrefix)
    ensures |{HomePath, WorkPath, AboutPath, ContactPath}| == 4
  {
    assert AboutPath[1] != WorkPrefix[1];
    assert ContactPath[..|WorkPrefix|][1] != WorkPrefix[1];
  }

  /** Each page's own path resolves back to that page. */
  lemma ResolvePathOf(page: Page)
    ensures Resolve(PathOf(page)) == page
  {
    FixedPathsDistinct();
    if page.CaseStudy? {
      ResolveCaseStudy(page.slug);
    }
  }

  /** Every path that does not fall back to `Home` is the page's own path, so
      resolution loses nothing except on the fallback. */
  lemma PathOfResolve(path: string)
    ensures Resolve(path) == Home || PathOf(Resolve(path)) == path
  {
    if Resolve(path).CaseStudy? {
      ResolveCaseStudyIff(path, Resolve(path).slug);
    }
  }

  /** The explicit rules and the fallback, stated from the caller's side:
      which paths give which page. Rule order cannot matter for `/work`
      because `/work` is too short to start with `/work/`. */
  lemma ResolveRules(path: string)
    ensures Resolve(path) == WorkList <==> path == WorkPath
    ensures Resolve(path) == About <==> path == AboutPath
    ensures Resolve(path) == Contact <==> path == ContactPath
    ensures Resolve(path).CaseStudy? <==> StartsWith(path, WorkPrefix)
    ensures Resolve(path) == Home <==>
      path !in {WorkPath, AboutPath, ContactPath} && !StartsWith(path, WorkPrefix)
    ensures !StartsWith(WorkPath, WorkPrefix)
  {
    FixedPathsDistinct();
  }

  /** Navigation state of the shell. `hash` is what `window.location.hash`
      reads back: empty, or `#` followed by the fragment. */
  datatype AppState = AppState(currentPath: string, direction: int, hash: string)

  /** Before the mount effect runs the shell shows `/` with direction 0,
      whatever the address bar holds. */
  function Initial(hash: string): (st: AppState)
    ensures st.currentPath == HomePath && st.direction == 0 && st.hash == hash
    ensures Resolve(st.currentPath) == Home
  {
    AppState(HomePath, 0, hash)
  }

  /** `window.location.hash.slice(1) || '/'`: the fragment without its `#`,
      or `/` when nothing is left. */
  function PathFromHash(hash: string): (path: string)
    ensures path != ""
    ensures |hash| <= 1 ==> path == HomePath
    ensures |hash| > 1 ==> path == hash[1..]
  {
    var rest := if |hash| == 0 then "" else hash[1..];
    if rest == "" then HomePath else rest
  }

  /** The mount effect: the current path is taken from the fragment. */
  function Hydrate(st: AppState): (st': AppState)
    ensures st'.currentPath == PathFromHash(st.hash) && st'.currentPath != ""
    ensures st'.direction == st.direction && st'.hash == st.hash
  {
    st.(currentPath := PathFromHash(st.hash))
  }

  /** What `location.hash` reads after `location.hash = path`: the setter
      drops one leading `#`, and an empty fragment reads back as "". */
  function HashAfterSet(path: string): (hash: string)
    ensures hash == "" || hash[0] == '#'
    ensures |path| > 0 && path[0] == '#' ==> hash == (if |path| == 1 then "" else path)
  {
    var fragment := if |path| > 0 && path[0] == '#' then path[1..] else path;
    if fragment == "" then "" else "#" + fragment
  }

  /** `handleNavigate`: direction 1, the new current path, the fragment
      written. The smooth scroll to the top is a browser effect. */
  function Navigate(st: AppState, path: string): (st': AppState)
    ensures st'.currentPath == path && st'.direction == 1
    ensures st'.hash == HashAfterSet(path)
    ensures path != "" && path[0] != '#' ==> st'.hash == "#" + path
    ensures path == "" ==> st'.hash == ""
  {
    AppState(path, 1, HashAfterSet(path))
  }

  /** The page on screen is a function of the current path alone. */
  function Displayed(st: AppState): Page {
    Resolve(st.currentPath)
  }

  /** Navigating twice to the same path is navigating once. */
  lemma NavigateIdempotent(st: AppState, path: string)
    ensures Navigate(Navigate(st, path), path) == Navigate(st, path)
  {
  }

  /** Reading back the fragment that `Navigate` wrote gives the path again,
      for every non-empty path that does not itself start with `#`. */
  lemma HashRoundTrip(st: AppState, path: string)
    requires path != "" && path[0] != '#'
    ensures Hydrate(Navigate(st, path)).currentPath == path
  {
    assert ("#" + path)[1..] == path;
  }

  /** Reloading after any navigation to a path that does not start with `#`
      shows the same page, including the empty path, which reads back as `/`
      and, like `/`, shows `Home`. */
  lemma ReloadShowsSamePage(st: AppState, path: string)
    requires path == "" || path[0] != '#'
    ensures Displayed(Hydrate(Navigate(st, path))) == Displayed(Navigate(st, path))
  {
    if path != "" {
      HashRoundTrip(st, path);
    }
  }

  /** A path that itself starts with `#` is shown as the home page, but the
      fragment setter drops that `#`, so a reload shows the path without it:
      `#/work` is Home until reloaded, then the work list. */
  lemma HashPrefixedPathReloadsDifferently(st: AppState)
    ensures Displayed(Navigate(st, "#/work")) == Home
    ensures Displayed(Hydrate(Navigate(st, "#/work"))) == WorkList
  {
    assert "#/work"[1..] == WorkPath;
    assert ("#" + WorkPath)[1..] == WorkPath;
    ResolveRules("#/work");
    ResolveRules(WorkPath);
  }

  /** In general, a reload after navigating to a path that starts with `#`
      shows the path without that `#`. */
  lemma HashPrefixedPathReloadsWithoutHash(st: AppState, path: string)
    requires |path| > 1 && path[0] == '#'
    ensures Hydrate(Navigate(st, path)).currentPath == path[1..]
  {
  }

  /** The page container is keyed by the current path: it is replaced, and
      the exit and enter animations run, exactly when the path changes.
      Navigating to the path already shown leaves the key as it was. */
  predicate Remounts(before: AppState, after: AppState) {
    before.currentPath != after.currentPath
  }

  lemma NavigateRemountsIffNewPath(st: AppState, path: string)
    ensures Remounts(st, Navigate(st, path)) <==> path != st.currentPath
  {
  }

  /** `prefersReducedMotion` in the shell: `false` when there is no window
      (`None`), otherwise whether the media query matches. */
  function PrefersReducedMotion(mediaMatches: Option<bool>): (reduced: bool)
    ensures reduced <==> mediaMatches == Some(true)
  {
    match mediaMatches
    case None => false
    case Some(m) => m
  }

  /** One animation keyframe of the page container. */
  datatype Frame = Frame(opacity: real, scale: real)

  /** Duration in seconds and the cubic-bezier control points of the easing. */
  datatype Timing = Timing(duration: real, ease: seq<real>)

  /** `pageVariants`: the empty object under reduced motion, otherwise the
      initial, animate and exit variants. */
  datatype Variants =
    | NoVariants
    | Variants(initial: Frame, animate: Frame, enterTiming: Timing, exit: Frame, exitTiming: Timing)

  const Ease: seq<real> := [0.22, 1.0, 0.36, 1.0]

  function PageVariants(reducedMotion: bool): (v: Variants)
    ensures reducedMotion <==> v.NoVariants?
    ensures v.Variants? ==>
      // the page enters from, and exits to, the same faded, slightly shrunk frame
      && v.initial == v.exit
      && v.initial.opacity == 0.0 && v.initial.scale == 0.98
      // and rests fully opaque at its natural size
      && v.animate == Frame(1.0, 1.0)
      // leaving is quicker than entering, and both ease the same way
      && 0.0 < v.exitTiming.duration < v.enterTiming.duration
      && v.enterTiming.ease == v.exitTiming.ease == Ease
  {
    if reducedMotion then NoVariants
    else Variants(Frame(0.0, 0.98), Frame(1.0, 1.0), Timing(0.3, Ease),
                  Frame(0.0, 0.98), Timing(0.2, Ease))
  }
}

=== FILE: seqs.dfy ===
/** Sequence facts used by the project list: duplicate-free sequences, the
    insertion order of a JavaScript `Set`, and order-preserving subsequences. */
module Seqs {

  predicate Distinct<T(==)>(xs: seq<T>) {
    forall i, j :: 0 <= i < j < |xs| ==> xs[i] != xs[j]
  }

  /** Index of the first occurrence of `x` in `xs`. */
  function FirstIndex<T(==)>(xs: seq<T>, x: T): (i: nat)
    requires x in xs
    ensures i < |xs| && xs[i] == x && x !in xs[..i]
  {
    if xs[0] == x then 0 else 1 + FirstIndex(xs[1..], x)
  }

  /** Appending an element does not move the first occurrence of anything
      already present. */
  lemma {:induction false} FirstIndexSnoc<T>(xs: seq<T>, z: T, x: T)
    requires x in xs
    ensures FirstIndex(xs + [z], x) == FirstIndex(xs, x)
  {
    if xs[0] != x {
      assert (xs + [z])[1..] == xs[1..] + [z];
      FirstIndexSnoc(xs[1..], z, x);
    }
  }

  /** `Array.from(new Set(xs))`: each element once, in the order it was first
      inserted. A `Set` ignores an element it already holds, so the last
      element of `xs` is appended only when it is new. */
  function Dedup<T(==)>(xs: seq<T>): (r: seq<T>)
    ensures Distinct(r)
    ensures forall i :: 0 <= i < |r| ==> r[i] in xs
    ensures forall i :: 0 <= i < |xs| ==> xs[i] in r
    ensures |r| <= |xs|
  {
    if |xs| == 0 then []
    else
      var d := Dedup(xs[..|xs| - 1]);
      var x := xs[|xs| - 1];
      assert xs == xs[..|xs| - 1] + [x];
      if x in d then d else d + [x]
  }

  /** The elements of `Dedup(xs)` appear in the order of their first
      occurrence in `xs`. */
  lemma {:induction false} DedupFirstOccurrenceOrder<T>(xs: seq<T>)
    ensures forall i, j :: 0 <= i < j < |Dedup(xs)| ==>
      FirstIndex(xs, Dedup(xs)[i]) < FirstIndex(xs, Dedup(xs)[j])
  {
    if |xs| > 0 {
      var init := xs[..|xs| - 1];
      var x := xs[|xs| - 1];
      assert xs == init + [x];
      var d := Dedup(init);
      DedupFirstOccurrenceOrder(init);
      forall y | y in d
        ensures FirstIndex(xs, y) == FirstIndex(init, y) < |init|
      {
        FirstIndexSnoc(init, x, y);
      }
      if x !in d {
        assert FirstIndex(xs, x) == |init| by {
          assert xs[..|init|] == init;
        }
        var r := d + [x];
        forall i, j | 0 <= i < j < |r|
          ensures FirstIndex(xs, r[i]) < FirstIndex(xs, r[j])
        {
          assert r[i] in d;
          if j < |d| {
            assert r[i] == d[i] && r[j] == d[j];
          }
        }
      }
    }
  }

  /** Every sequence is a subsequence of itself, leaving nothing out. */
  lemma {:induction false} SubsequenceOfItself<T>(xs: seq<T>)
    ensures IsSubsequence(xs, xs)
    decreases |xs|
  {
    if |xs| > 0 {
      SubsequenceOfItself(xs[1..]);
    }
  }

  /** `a` is `b` with some elements left out and the rest kept in order. */
  predicate IsSubsequence<T(==)>(a: seq<T>, b: seq<T>)
    decreases |b|
  {
    if |a| == 0 then true
    else if |b| == 0 then false
    else (a[0] == b[0] && IsSubsequence(a[1..], b[1..])) || IsSubsequence(a, b[1..])
  }
}

=== FILE: site.dfy ===
/** The pieces put together: a card click followed through the router to the
    case-study page, and the navigation scenarios over the site's own project
    record. */
module Site {
  import opened Options
  import opened Projects
  import Router
  import WorkPage
  import CaseStudyPage
  import ProjectCard

  /** From a card on the Work page to its case study: the slug the card hands
      over becomes a path that resolves to that slug's case study, and the
      lookup there finds the very project the card showed. */
  lemma CardOpensItsCaseStudy(ps: seq<Project>, i: nat, app: Router.AppState)
    requires UniqueSlugs(ps) && i < |ps|
    ensures var st := Router.Navigate(app, WorkPage.CardTarget(ProjectCard.ClickedSlug(ps[i])));
      && Router.Displayed(st) == Router.CaseStudy(ps[i].slug)
      && CaseStudyPage.CaseStudyView(ps, Router.Displayed(st).slug)
         == CaseStudyPage.Detail(ps[i], Router.WorkPath, Router.ContactPath)
  {
    CaseStudyPage.FindOwnSlug(ps, i);
  }

  const RoboticsSlug: string := "physical-ai-humanoid-robotics"

  /** The site's one project, with its prose fields left empty. */
  const Robotics: Project := Project(
    "1",
    "Physical AI & Humanoid Robotics Textbook",
    RoboticsSlug,
    "",
    ["Full-Stack", "AI/RAG", "React", "FastAPI", "PostgreSQL", "Qdrant"],
    "https://github.com/AairaSheikh/physical-ai-humanoid-robotics",
    true,
    CaseStudy("", "", "", "", "", [], Architecture("", "", "", "", "", ""), [], [], [], []))

  const SiteProjects: seq<Project> := [Robotics]

  /** Home, then the work list, then the robotics case study: each step shows
      the page its path names, and the fragment ends in the slug. */
  lemma NavigationScenario(hash: string)
    ensures var s0 := Router.Navigate(Router.Hydrate(Router.Initial(hash)), Router.HomePath);
      var s1 := Router.Navigate(s0, Router.WorkPath);
      var s2 := Router.Navigate(s1, Router.WorkPrefix + RoboticsSlug);
      && Router.Displayed(s0) == Router.Home
      && Router.Displayed(s1) == Router.WorkList
      && Router.Displayed(s2) == Router.CaseStudy(RoboticsSlug)
      && s2.hash == "#/work/" + RoboticsSlug
      && CaseStudyPage.CaseStudyView(SiteProjects, RoboticsSlug)
         == CaseStudyPage.Detail(Robotics, Router.WorkPath, Router.ContactPath)
  {
    Router.ResolveRules(Router.HomePath);
    Router.ResolveRules(Router.WorkPath);
    Router.ResolveCaseStudy(RoboticsSlug);
    CaseStudyPage.FindOwnSlug(SiteProjects, 0);
  }

  /** An unknown slug still routes to the case-study page, which then shows
      the not-found message with its way back to the work list. */
  lemma UnknownSlugScenario(app: Router.AppState)
    ensures var st := Router.Navigate(app, Router.WorkPrefix + "does-not-exist");
      && Router.Displayed(st) == Router.CaseStudy("does-not-exist")
      && CaseStudyPage.CaseStudyView(SiteProjects, "does-not-exist")
         == CaseStudyPage.NotFound(Router.WorkPath)
  {
    Router.ResolveCaseStudy("does-not-exist");
    assert Robotics.slug[0] != "does-not-exist"[0];
  }

  /** With the site's data every tag button, "All" included, selects the
      one project, so the empty-state message never shows. */
  lemma EveryTagFindsTheProject(t: string)
    requires t == WorkPage.AllTag || t in Robotics.tags
    ensures WorkPage.FilteredProjects(SiteProjects, t) == SiteProjects
    ensures !WorkPage.EmptyStateShown(WorkPage.FilteredProjects(SiteProjects, t))
  {
    if t != WorkPage.AllTag {
      assert SiteProjects[0] == Robotics;
      assert Robotics in WorkPage.FilteredProjects(SiteProjects, t);
      assert SiteProjects[1..] == [];
    }
  }
}

=== FILE: strings.dfy ===
/** The few JavaScript string operations the site relies on, over `seq<char>`:
    `startsWith`, `indexOf`, `replace` with a string pattern (first occurrence
    only), and `trim` with the ECMAScript notion of white space. */
module Strings {
  import opened Options

  /** `s.startsWith(prefix)`. */
  predicate StartsWith(s: string, prefix: string) {
    |prefix| <= |s| && s[..|prefix|] == prefix
  }

  /** The rest of `s` after `prefix`, when `s` starts with it. */
  function StripPrefix(s: string, prefix: string): (r: Option<string>)
    ensures r.Some? <==> StartsWith(s, prefix)
    ensures r.Some? ==> s == prefix + r.value
  {
    if StartsWith(s, prefix) then
      assert s == s[..|prefix|] + s[|prefix|..];
      Some(s[|prefix|..])
    else None
  }

  lemma StripPrefixOfConcat(prefix: string, t: string)
    ensures StripPrefix(prefix + t, prefix) == Some(t)
  {
    assert (prefix + t)[..|prefix|] == prefix;
    assert (prefix + t)[|prefix|..] == t;
  }

  /** `pat` occurs in `s` starting at index `i`. */
  predicate OccursAt(s: string, pat: string, i: nat) {
    i + |pat| <= |s| && s[i..i + |pat|] == pat
  }

  /** `s.indexOf(pat, from)`: the first index at or after `from` where `pat`
      occurs, or `None` where JavaScript answers -1. */
  function IndexOfFrom(s: string, pat: string, from: nat): (r: Option<nat>)
    decreases |s| - from
    ensures r.Some? ==> from <= r.value && OccursAt(s, pat, r.value)
    ensures r.Some? ==> forall j: nat :: from <= j < r.value ==> !OccursAt(s, pat, j)
    ensures r.None? ==> forall j: nat :: from <= j ==> !OccursAt(s, pat, j)
  {
    if |s| < from + |pat| then None
    else if OccursAt(s, pat, from) then Some(from)
    else IndexOfFrom(s, pat, from + 1)
  }

  /** `s.indexOf(pat)`. */
  function IndexOf(s: string, pat: string): Option<nat> {
    IndexOfFrom(s, pat, 0)
  }

  /** An occurrence with nothing earlier is the one `indexOf` reports. */
  lemma IndexOfIsFirst(s: string, pat: string, i: nat)
    requires OccursAt(s, pat, i)
    requires forall j: nat :: j < i ==> !OccursAt(s, pat, j)
    ensures IndexOf(s, pat) == Some(i)
  {
  }

  /** A single character that does not occur in `s` is found exactly at the
      end of `s` in `s + [c] + t`. */
  lemma IndexOfAfterFreePrefix(s: string, c: char, t: string)
    requires c !in s
    ensures IndexOf(s + [c] + t, [c]) == Some(|s|)
  {
    var u := s + [c] + t;
    assert u[|s|..|s| + 1] == [c];
    forall j: nat | j < |s|
      ensures !OccursAt(u, [c], j)
    {
      assert u[j] == s[j];
    }
    IndexOfIsFirst(u, [c], |s|);
  }

  /** Reads `tag`, then a value running up to the first `stop`: the value
      and the rest of `s` from the `stop` on. */
  function TakeLabelled(s: string, tag: string, stop: char): Option<(string, string)> {
    match StripPrefix(s, tag)
    case None => None
    case Some(rest) =>
      match IndexOf(rest, [stop])
      case None => None
      case Some(i) => Some((rest[..i], rest[i..]))
  }

  /** A value free of `stop`, followed by text that starts with `stop`, is
      read back exactly. */
  lemma TakeLabelledRoundTrip(tag: string, value: string, stop: char, rest: string)
    requires stop !in value && |rest| > 0 && rest[0] == stop
    ensures TakeLabelled(tag + value + rest, tag, stop) == Some((value, rest))
  {
    var u := value + rest;
    assert tag + value + rest == tag + u;
    StripPrefixOfConcat(tag, u);
    assert u == value + [stop] + rest[1..];
    IndexOfAfterFreePrefix(value, stop, rest[1..]);
    assert u[..|value|] == value;
    assert u[|value|..] == rest;
  }

  /** `s.replace(pat, rep)` with a string pattern: only the first occurrence
      is replaced, and `s` is returned unchanged when `pat` does not occur. */
  function ReplaceFirst(s: string, pat: string, rep: string): (r: string)
    ensures IndexOf(s, pat).None? ==> r == s
    ensures IndexOf(s, pat).Some? ==>
      var i := IndexOf(s, pat).value;
      r == s[..i] + rep + s[i + |pat|..]
  {
    match IndexOf(s, pat)
    case None => s
    case Some(i) => s[..i] + rep + s[i + |pat|..]
  }

  /** When `s` starts with `pat`, the first occurrence is the prefix itself,
      so removing it leaves exactly the remainder after the prefix. */
  lemma ReplacePrefixRemovesPrefix(s: string, pat: string)
    requires StartsWith(s, pat)
    ensures ReplaceFirst(s, pat, "") == s[|pat|..]
  {
    IndexOfIsFirst(s, pat, 0);
  }

  /** ECMAScript WhiteSpace and LineTerminator code points, the set
      `String.prototype.trim` removes: tab, vertical tab, form feed, space,
      no-break space, the byte order mark, the other space separators of
      category Zs, line feed, carriage return and the two Unicode line and
      paragraph separators. */
  predicate IsWhitespace(c: char) {
    var n := c as int;
    n == 0x09 || n == 0x0A || n == 0x0B || n == 0x0C || n == 0x0D ||
    n == 0x20 || n == 0xA0 || n == 0x1680 ||
    (0x2000 <= n <= 0x200A) ||
    n == 0x2028 || n == 0x2029 || n == 0x202F || n == 0x205F ||
    n == 0x3000 || n == 0xFEFF
  }

  predicate NoWhitespace(s: string) {
    forall i :: 0 <= i < |s| ==> !IsWhitespace(s[i])
  }

  /** Neither end of `s` is white space. */
  predicate Trimmed(s: string) {
    |s| == 0 || (!IsWhitespace(s[0]) && !IsWhitespace(s[|s| - 1]))
  }

  /** `s.trimStart()`: the longest suffix of `s` not starting with white space. */
  function TrimStart(s: string): (r: string)
    ensures |r| <= |s| && r == s[|s| - |r|..]
    ensures |r| == 0 || !IsWhitespace(r[0])
    ensures forall i :: 0 <= i < |s| - |r| ==> IsWhitespace(s[i])
  {
    if |s| > 0 && IsWhitespace(s[0]) then TrimStart(s[1..]) else s
  }

  /** `s.trimEnd()`: the longest prefix of `s` not ending with white space. */
  function TrimEnd(s: string): (r: string)
    ensures |r| <= |s| && r == s[..|r|]
    ensures |r| == 0 || !IsWhitespace(r[|r| - 1])
    ensures forall i :: |r| <= i < |s| ==> IsWhitespace(s[i])
  {
    if |s| > 0 && IsWhitespace(s[|s| - 1]) then TrimEnd(s[..|s| - 1]) else s
  }

  /** `s.trim()`. */
  function Trim(s: string): (r: string)
    ensures Trimmed(r)
  {
    TrimEnd(TrimStart(s))
  }

  /** `trim` removes only white space at the ends: the result is the slice
      of `s` between `LeadingCut(s)` and the trailing white space. */
  lemma TrimCutsOnlyWhitespace(s: string)
    ensures LeadingCut(s) + |Trim(s)| <= |s|
    ensures Trim(s) == s[LeadingCut(s)..LeadingCut(s) + |Trim(s)|]
    ensures forall i :: 0 <= i < LeadingCut(s) ==> IsWhitespace(s[i])
    ensures forall i :: LeadingCut(s) + |Trim(s)| <= i < |s| ==> IsWhitespace(s[i])
  {
    var a := TrimStart(s);
    var k := LeadingCut(s);
    var r := TrimEnd(a);
    assert a == s[k..];
    assert r == s[k..k + |r|];
    forall i | k + |r| <= i < |s|
      ensures IsWhitespace(s[i])
    {
      assert s[i] == a[i - k];
    }
  }

  /** How many characters `trimStart` removes from the front of `s`. */
  function LeadingCut(s: string): nat {
    |s| - |TrimStart(s)|
  }

  /** A string with no white space at either end is its own trim. */
  lemma TrimOfTrimmed(s: string)
    requires Trimmed(s)
    ensures Trim(s) == s
  {
  }

  /** Trimming twice is trimming once. */
  lemma TrimIdempotent(s: string)
    ensures Trim(Trim(s)) == Trim(s)
  {
    TrimOfTrimmed(Trim(s));
  }
}

=== FILE: work_page.dfy ===
/** The Work page: the tag catalogue, the tag filter, the empty-state
    message and the navigation of a project card to its case study. */
module WorkPage {
  import opened Seqs
  import opened Projects
  import Router

  /** The pseudo-tag that stands for "no filter". */
  const AllTag: string := "All"

  datatype WorkState = WorkState(selectedTag: string)

  /** The page opens with no filter. */
  function InitialWork(): (st: WorkState)
    ensures st.selectedTag == AllTag
  {
    WorkState(AllTag)
  }

  /** The tag button drawn highlighted: the one equal to the selection. */
  predicate IsSelected(st: WorkState, tag: string) {
    st.selectedTag == tag
  }

  /** Clicking a tag button selects that tag: afterwards exactly that button
      is highlighted. */
  function SelectTag(st: WorkState, tag: string): (st': WorkState)
    ensures forall t :: IsSelected(st', t) <==> t == tag
  {
    WorkState(tag)
  }

  /** `projects.flatMap(p => p.tags)`. */
  function ProjectTags(ps: seq<Project>): (tags: seq<string>)
    ensures forall t :: t in tags <==> exists i :: 0 <= i < |ps| && t in ps[i].tags
  {
    if |ps| == 0 then []
    else
      var rest := ProjectTags(ps[1..]);
      assert forall i :: 1 <= i < |ps| ==> ps[i] == ps[1..][i - 1];
      ps[0].tags + rest
  }

  /** `allTags`: the pseudo-tag first, then every project tag once, in the
      order a `Set` receives them. */
  function AllTags(ps: seq<Project>): seq<string> {
    [AllTag] + Dedup(ProjectTags(ps))
  }

  /** The catalogue starts with "All"; after it comes each tag used by some
      project, each exactly once and nothing else. */
  lemma AllTagsCatalogue(ps: seq<Project>, t: string)
    ensures AllTags(ps)[0] == AllTag
    ensures Distinct(AllTags(ps)[1..])
    ensures t in AllTags(ps)[1..] <==> exists i :: 0 <= i < |ps| && t in ps[i].tags
  {
    var tags := ProjectTags(ps);
    assert AllTags(ps)[1..] == Dedup(tags);
    if t in Dedup(tags) {
      var k :| 0 <= k < |Dedup(tags)| && Dedup(tags)[k] == t;
      assert t in tags;
    }
    if t in tags {
      var k :| 0 <= k < |tags| && tags[k] == t;
      assert t in Dedup(tags);
    }
  }

  /** The catalogue after "All" lists tags in the order they first appear
      when the projects' tag lists are read one after another. */
  lemma AllTagsFirstOccurrenceOrder(ps: seq<Project>)
    ensures var tags := ProjectTags(ps); var all := AllTags(ps);
      forall i, j :: 1 <= i < j < |all| ==>
        all[i] in tags && all[j] in tags && FirstIndex(tags, all[i]) < FirstIndex(tags, all[j])
  {
    var tags := ProjectTags(ps);
    var d := Dedup(tags);
    var all := AllTags(ps);
    assert all[1..] == d;
    DedupFirstOccurrenceOrder(tags);
    forall i, j | 1 <= i < j < |all|
      ensures all[i] in tags && all[j] in tags
      ensures FirstIndex(tags, all[i]) < FirstIndex(tags, all[j])
    {
      assert all[i] == d[i - 1];
      assert all[j] == d[j - 1];
    }
  }

  /** `projects.filter(p => p.tags.includes(tag))`: the projects carrying the
      tag, each as often as in the list, in list order. */
  function FilterByTag(ps: seq<Project>, tag: string): (r: seq<Project>)
    ensures forall i :: 0 <= i < |r| ==> tag in r[i].tags
    ensures forall p :: multiset(r)[p] == if tag in p.tags then multiset(ps)[p] else 0
    ensures IsSubsequence(r, ps)
  {
    if |ps| == 0 then []
    else
      var rest := FilterByTag(ps[1..], tag);
      assert ps == [ps[0]] + ps[1..];
      if tag in ps[0].tags then
        assert ([ps[0]] + rest)[1..] == rest;
        [ps[0]] + rest
      else rest
  }

  /** `filteredProjects`: the whole list under "All", otherwise the filter. */
  function FilteredProjects(ps: seq<Project>, selectedTag: string): (r: seq<Project>)
    ensures selectedTag == AllTag ==> r == ps
    ensures selectedTag != AllTag ==>
      forall p :: p in r <==> p in ps && selectedTag in p.tags
    ensures selectedTag != AllTag ==>
      forall p :: multiset(r)[p] == if selectedTag in p.tags then multiset(ps)[p] else 0
    ensures IsSubsequence(r, ps)
  {
    if selectedTag == AllTag then
      SubsequenceOfItself(ps);
      ps
    else FilterByTag(ps, selectedTag)
  }

  /** "No projects found with this tag." is shown exactly for an empty result. */
  predicate EmptyStateShown(filtered: seq<Project>) {
    |filtered| == 0
  }

  /** Choosing from the catalogue never yields the empty state unless there
      are no projects at all. */
  lemma CatalogueTagNeverEmpty(ps: seq<Project>, t: string)
    requires t in AllTags(ps)
    ensures EmptyStateShown(FilteredProjects(ps, t)) <==> |ps| == 0
  {
    if t != AllTag {
      AllTagsCatalogue(ps, t);
      assert t in AllTags(ps)[1..];
      var i :| 0 <= i < |ps| && t in ps[i].tags;
      assert ps[i] in FilteredProjects(ps, t);
    }
  }

  /** A card on this page navigates to `/work/` followed by the card's slug. */
  function CardTarget(slug: string): (path: string)
    ensures Router.Resolve(path) == Router.CaseStudy(slug)
  {
    Router.ResolveCaseStudy(slug);
    Router.WorkPrefix + slug
  }
}
